=== FILE: README.md ===
# live-logs-handler: a Dafny model of the structured logger

This project models `ThreadSafeStructuredLogger` from
`live_logs_handler/handler.py`. It is the core of a notebook logging library.
Producers submit dictionaries through `_log`. The entries go into a bounded
`queue.Queue`, and one background writer appends each of them to a file as
one line. `start` and `stop` attach and detach a `logging` handler, install
and remove `print` capture wrappers on `sys.stdout`/`sys.stderr`, and start
and drain the writer.

The class exists for concurrency, so the model takes a specific view of it.
Every method becomes one atomic step on an immutable `Logger.State`, and a
concurrent execution becomes a sequence of such steps (`Lifecycle.Action`,
`Lifecycle.Next`, `Lifecycle.Run`). `stop` blocks in `log_queue.join()`
while holding the lock, so it is split into two steps:

- `Logger.Stop` covers everything up to the join.
- `Logger.StopReturn` can only happen once the queue is empty.

The `stopping` flag records that a `stop` is in progress. A `start` or
`stop` issued meanwhile would wait for the lock, so in the model it stutters.
One writer step (`Logger.WriterStep`) is one pass of the `_log_writer` loop:
`get`, write and `task_done` happen as a single step. The `writers` field
counts writer threads that are still inside their loop.

Modules, leaves first:

- `Strings`: Python's `isspace`, `strip`/`rstrip`, ASCII `upper`, decimal
  rendering of an int, and the 100-character cell preview.
- `Records`: entry values, `Entry = map<string, Value>`, the stamping that
  `_log` applies (`Stamp`), and the `Queue.full()` test.
- `Entries`: the dictionaries each producer builds before calling `_log`.
- `Logger`: the state and one function per step.
- `Lifecycle`: traces of steps, the invariant they keep, and the guarantees
  of `start`, `stop` and the writer.
- `Producers`: what each producer's record looks like after normalisation.
- `Accounting`: which records each step gets accepted, stated from the
  producers' dictionaries, and the proof that the file receives exactly
  those.

Facts about handler.py that the model follows:

- A second `start` prints "Logger already running" and returns without
  raising (handler.py:75-77).
- The severity field is `severity_text`, and a keyword argument of `log` can
  override it (handler.py:284-288). `_log` overwrites `timestamp`,
  `thread_id` and `thread_name`, and, when cell info is on and a cell is
  current, `cell_number` and (for a truthy id) `cell_id` (handler.py:247-255).
- Captured prints carry `source = "print"` and a `stream` key
  (handler.py:189-195).
- The shutdown record reports `total_cells`, which is the cell counter, not a
  count of accepted records (handler.py:114-119).
- `stop` waits for the queue to drain (`log_queue.join()`, handler.py:138),
  not for the writer thread to exit. `Lifecycle.RestartCanLeaveTwoWriters`
  shows the consequence: a `start` right after `stop` can find the old writer
  still looping, and two writers then serve the queue.
- The log file is opened by the writer thread (handler.py:266), so a failure
  to open it is never reported by `start`.

## Model

| member | source | states |
|---|---|---|
| `Strings.RStrip` | live_logs_handler/handler.py:191 | `text.rstrip()` is a prefix of `text`, everything it drops is whitespace, and it ends in a non-whitespace character unless empty |
| `Strings.LStrip` | live_logs_handler/handler.py:188 | `lstrip` is a suffix of its input, drops only whitespace, and starts with a non-whitespace character unless empty |
| `Strings.StripEmptyIffBlank` | live_logs_handler/handler.py:188 | `text.strip()` is falsy exactly when every character of `text` is whitespace |
| `Strings.RStripEmptyIffBlank` | live_logs_handler/handler.py:191 | `rstrip` leaves nothing exactly when the text is all whitespace |
| `Strings.LStripEmptyIffBlank` | live_logs_handler/handler.py:188 | `lstrip` leaves nothing exactly when the text is all whitespace |
| `Strings.UpperChar` | live_logs_handler/handler.py:285 | an ASCII lower-case letter becomes its upper-case letter; every other character is kept |
| `Strings.Upper` | live_logs_handler/handler.py:285 | `level.upper()` keeps the length and maps every character through `UpperChar`, so no ASCII lower-case letter is left and every other character is kept |
| `Strings.NatToString` | live_logs_handler/handler.py:217 | the cell counter in an f-string is a non-empty run of decimal digits with no leading zero |
| `Strings.NatToStringRoundTrip` | live_logs_handler/handler.py:217 | the rendered counter reads back as the same number |
| `Strings.NatToStringInjective` | live_logs_handler/handler.py:228 | different counters render differently |
| `Strings.Preview` | live_logs_handler/handler.py:219 | `raw_cell[:100]` is a prefix of the cell source of length `min(100, len)` |
| `Records.Stamp` | live_logs_handler/handler.py:246-255 | `_log` overwrites `timestamp`, `thread_id` and `thread_name` with the caller's context. It adds `cell_number` only when cell info is on and a cell is current, and `cell_id` only when that id is also truthy. Every other key keeps its value |
| `Entries.StartupEntry` | live_logs_handler/handler.py:98-103 | the startup record is INFO and names the log file |
| `Entries.ShutdownEntry` | live_logs_handler/handler.py:114-119 | the shutdown record is INFO and carries `total_cells` = the cell counter |
| `Entries.ManualEntry` | live_logs_handler/handler.py:284-288 | the keys are `severity_text`, `body` and the kwargs. Every kwarg keeps its value, so a kwarg overrides the defaults `level.upper()` and `message` |
| `Entries.EmitEntry` | live_logs_handler/handler.py:155-167 | the handler's entry holds exactly the level name, message, logger name, module, function and line of the record, plus `exception` exactly when the record has exception info |
| `Entries.PrintEntry` | live_logs_handler/handler.py:189-195 | a print record is ERROR for stderr and INFO otherwise, with `source = "print"` and the stream name |
| `Entries.CellStartEntry` | live_logs_handler/handler.py:215-221 | the cell-start record is DEBUG with event `cell_start`, body "Cell N execution started", and exactly the first 100 characters of the cell source as preview |
| `Entries.CellEndEntry` | live_logs_handler/handler.py:226-235 | the cell-end record has exactly the keys severity, body, event, `success` and, iff the cell raised, `error`. It is ERROR iff the cell raised, with body "Cell N execution completed" and the error text |
| `Entries.CellStartBodyDistinct` | live_logs_handler/handler.py:217 | two different cells never share a start message |
| `Logger.Init` | live_logs_handler/handler.py:48-70 | a new logger keeps the configuration it was given and is stopped, with an empty queue and file, no writer, `log_handler` None, nothing attached, no capture and no current cell |
| `Logger.Log` | live_logs_handler/handler.py:241-262 | while stopped, `_log` changes nothing. While running with a full queue it drops the entry silently. Otherwise it appends the normalised entry at the back. The queue never grows past `buffer_size` |
| `Logger.CaptureWrite` | live_logs_handler/handler.py:182-197 | `PrintCapture.write` forwards the text verbatim and returns `len(text)`. It queues a record with the right-stripped body exactly when the text is not blank and `_log` accepts (running, queue not full); otherwise the queue is unchanged. Nothing else changes |
| `Logger.SysWrite` | live_logs_handler/handler.py:182-203 | a write to `sys.stdout`/`sys.stderr` always appends exactly the text to that original stream and nothing to the other. It adds the print record only when capture is installed, the text is not blank and the queue accepts; nothing but the streams and the queue changes |
| `Logger.WriterStep` | live_logs_handler/handler.py:267-278 | one writer pass moves the queue's head to the end of the file and so keeps file + queue unchanged. A writer leaves its loop exactly when stopped with an empty queue |
| `Logger.PreRunCell` | live_logs_handler/handler.py:207-212 | `_pre_run_cell` increments the cell counter and makes the new cell current. Apart from the queue, nothing else in the logger changes |
| `Logger.PostRunCell` | live_logs_handler/handler.py:239 | `_post_run_cell` always clears the current cell and leaves the counter alone. Apart from the queue, nothing else in the logger changes |
| `Lifecycle.InitInv` | live_logs_handler/handler.py:48-70 | a new logger satisfies the invariant and has accepted nothing |
| `Lifecycle.StartedUpInv` | live_logs_handler/handler.py:79-95 | before it logs, `start` from idle has set `running`, added one writer, attached exactly one handler newer than all before it, and installed capture iff `capture_print`; the invariant already holds |
| `Lifecycle.LogFollows` | live_logs_handler/handler.py:241-262 | `_log` keeps the invariant and only appends to the accepted entries |
| `Lifecycle.StartFollows` | live_logs_handler/handler.py:72-105 | `start` keeps the invariant and loses no accepted entry |
| `Lifecycle.StopFollows` | live_logs_handler/handler.py:107-135 | the first part of `stop` keeps the invariant and loses no accepted entry |
| `Lifecycle.StopReturnFollows` | live_logs_handler/handler.py:137-140 | the end of `stop` keeps the invariant and loses no accepted entry |
| `Lifecycle.NextFollows` | live_logs_handler/handler.py:72-289 | every step of every thread keeps the invariant, and the file stays a prefix of the accepted entries |
| `Lifecycle.RunFollows` | live_logs_handler/handler.py:257-278 | over any interleaving, the queue stays within `buffer_size`, capture and the single handler exist exactly while running, and a writer is alive whenever the loop condition holds. Accepted entries only grow at the end, and the file is always a prefix of them (FIFO, never duplicated) |
| `Accounting.NextSubmits` | live_logs_handler/handler.py:72-289 | every step extends file + queue by exactly the records it submits successfully, each defined from the producer's dictionary and the `_log` acceptance rule, and by nothing else |
| `Accounting.RunSubmits` | live_logs_handler/handler.py:241-278 | over any interleaving, file + queue is the starting content followed by every successfully submitted record, in submission order |
| `Accounting.FileIsSubmittedPrefix` | live_logs_handler/handler.py:264-278 | from a new logger, the file is always a prefix of the records submitted successfully: in order, none twice, none invented |
| `Accounting.IdleFileIsSubmitted` | live_logs_handler/handler.py:137-140 | once every `stop` has returned, the file holds exactly the records submitted successfully, in order, each with the mandatory fields |
| `Lifecycle.PrintEffect` | live_logs_handler/handler.py:105 | a `print` puts the message and a line end on the original stdout. It queues one record built from the message exactly when the wrappers are installed and the queue accepts |
| `Lifecycle.StartFromIdle` | live_logs_handler/handler.py:72-105 | `start` from idle adds one writer and one fresh attached handler, and installs capture iff `capture_print`. It writes nothing to the file and prints its notice on the original stdout. It clears `stopping` and keeps the configuration, the cell counter (so a later `total_cells` counts every cell) and the current cell |
| `Lifecycle.StartQueuesStartup` | live_logs_handler/handler.py:79-105 | `running` is set before the startup record is logged, so that record becomes the queue's head. The closing `print` is recorded after it iff capture is on and the queue has room |
| `Lifecycle.StartupNamesLogFile` | live_logs_handler/handler.py:98-102 | the startup record keeps `log_file` through `_log`'s normalisation |
| `Lifecycle.StartWhileRunning` | live_logs_handler/handler.py:74-77 | `start` while running adds no writer or handler and leaves the streams alone. It only prints "Logger already running", which is recorded iff capture is on and the queue accepts |
| `Lifecycle.StopFromRunning` | live_logs_handler/handler.py:107-135 | `stop` offers the shutdown record, with `total_cells`, before clearing `running`. It then detaches the handler and restores the original streams |
| `Lifecycle.StopIdempotent` | live_logs_handler/handler.py:109-111 | `stop` while stopped changes nothing, so a second `stop` adds no shutdown record |
| `Lifecycle.StopReturnWaitsForDrain` | live_logs_handler/handler.py:137-140 | `stop` cannot return while anything is queued. Its final notice goes to the restored stdout and is not recorded |
| `Lifecycle.WriterLoop` | live_logs_handler/handler.py:264-280 | a writer that finds `running` cleared writes every queued entry, head first, one line each, and then exits |
| `Lifecycle.StopAndDrain` | live_logs_handler/handler.py:107-140 | a full `stop` returns idle. The file then holds every entry queued before it, followed by the shutdown record when there was room. No handler is attached, the streams are restored and the writer is gone |
| `Lifecycle.RestartAfterDrain` | live_logs_handler/handler.py:79-83 | a `start` after `stop` returns adds one writer to those still looping, since `stop` never waited for them to exit |
| `Lifecycle.RestartCanLeaveTwoWriters` | live_logs_handler/handler.py:137-138 | start, stop, drain, return, start leaves one more live writer loop than the single one intended |
| `Producers.ManualLogRecord` | live_logs_handler/handler.py:282-289 | `log` queues one record. Its `severity_text` and `body` come from the kwargs when given there, and from `level.upper()` and `message` otherwise. The other kwargs survive unless stamped. When not accepting, nothing changes |
| `Producers.EmitOnce` | live_logs_handler/handler.py:155-172 | a framework record is submitted once, because only one handler is ever attached, so no record is duplicated |
| `Producers.CaptureWriteRecord` | live_logs_handler/handler.py:182-197 | a captured write returns `len(text)` and adds a record iff the text is not blank. The record's body is the right-stripped text, with ERROR for stderr, INFO for stdout, `source = "print"` and the stream name |
| `Producers.HelloOnStdout` | live_logs_handler/handler.py:182-197 | writing "hello\n" to captured stdout echoes "hello\n" and queues one INFO record with body "hello" and stream "stdout" |
| `Producers.PreRunCellRecord` | live_logs_handler/handler.py:205-221 | with cell info on and the queue accepting, one record is appended carrying the new cell number, the cell id iff it is truthy, the start message and exactly the first 100 characters of the cell source. Otherwise nothing is queued |
| `Producers.PostRunCellRecord` | live_logs_handler/handler.py:223-239 | with cell info on, a current cell and the queue accepting, one record is appended that carries the cell number and the end message, is ERROR iff the cell raised, and then holds `str(error_in_exec)`. Otherwise nothing is queued. In every case the current cell is cleared |
| `Producers.NoCellContextAfterPostRun` | live_logs_handler/handler.py:239-255 | after a cell ends, `_log` adds no cell fields until the next cell starts |

## Left out

- Threads, `threading.Lock`, the daemon flag and the 0.1 s `get` timeout are not modelled. Concurrency is an interleaving of atomic steps.
- `start` and the first part of `stop` are each one atomic step. The writer cannot run in the middle of them, so whether the startup notice fits into a one-slot queue is decided as if the writer were idle.
- `_log` is one atomic step, although its `running` test (handler.py:243) and its `put_nowait` (handler.py:259) take no lock. In the program a producer can pass the test, `stop` can then clear `running`, the writer can drain the queue and leave its loop (handler.py:267), and only then the `put_nowait` runs: `log_queue.join()` (handler.py:138) never returns, or the entry stays queued into the next session. The invariant that an idle logger has an empty queue, `Lifecycle.StopAndDrain` and `Accounting.IdleFileIsSubmitted` rely on this atomicity.
- Interleaving inside one writer pass is not modelled. `get`, `json.dumps`, `write`, `flush` and `task_done` form one step, so when two writers coexist, the model does not show their lines being reordered.
- File I/O is not modelled. A written line is the entry itself, and `json.dumps(..., default=str)`, key order in the dictionaries and I/O errors are left out. An exception inside the writer's `try` skips `task_done`, which would make `stop` wait forever; this is not modelled.
- Wall-clock time, `threading.get_ident()` and thread names are parameters (`Records.Ctx`). Callers also put their own `timestamp` into most entries; it is omitted because `_log` always overwrites it.
- The `logging` framework is not modelled: `basicConfig`, level filtering, `Handler.format`, `formatException` and propagation. A routed record arrives as an already formatted `Entries.FrameworkRecord`.
- IPython is not modelled. The hooks are never registered (the registration is commented out at handler.py:86-88), so `_pre_run_cell`/`_post_run_cell` are modelled as steps that some caller may take. `start_time` in `current_cell` is never read by `_log` and is not kept.
- The real stream objects, `flush` and `Path` normalisation of `log_file` are not modelled. Streams are identified as `Stdout`/`Stderr`, and their contents are the two text fields.
- `get_logger`, `start_logging` and the `LIVE_LOGS_FILE_PATH` environment variable are not modelled: they are a singleton and environment glue around `start`.
- `live_logs_handler/__init__.py` (re-exports only), `setup.py` (packaging) and `test_multithreaded.py` (a driver with no assertions) are not part of this model.
- Records.Value: only strings, integers and booleans are modelled. Arbitrary Python objects passed as kwargs or as `message` are not.
- Strings.Upper: maps only ASCII letters. Python's full Unicode `str.upper()` is not modelled, including length-changing cases such as 'ß' to "SS".
- Strings.UpperChar: keeps every non-ASCII character, where Python upper-cases letters such as 'é' to 'É'.
- Entries.ManualEntry: accepts any keyword map. Python's calling convention would reject the keys `level`, `message` and `self` with a `TypeError`, and the model does not.

=== FILE: accounting.dfy ===
/**
 Which records each step submits successfully to `_log`, stated from the
 producers' dictionaries alone, and the proof that the accepted entries are
 exactly those: nothing is lost, reordered, duplicated or invented between
 the producers and the log file.
 */
module Accounting {
  import opened Strings
  import opened Records
  import opened Entries
  import opened Logger
  import opened Lifecycle
  import opened Producers

  /** What `_log` accepts when offered `e` in state `s`: the stamped entry, or nothing. */
  function Admitted(s: State, e: Entry, ctx: Ctx): seq<Entry> {
    if Accepting(s) then [Normalized(s, e, ctx)] else []
  }

  /**
   The records step `a` gets accepted from state `s`, in order. `start` from
   idle always gets its startup record in and then its notice when capture is
   being installed and the queue has a second slot; `start` while running
   only its notice; `stop` its shutdown record; `print` line ends and the
   notice of a returning `stop` never count; a framework record is routed to
   the one attached handler.
   */
  function Submitted(s: State, a: Action): seq<Entry> {
    match a
    case StartCall(ctx) =>
      if s.stopping then []
      else if s.running then
        if s.captured then Admitted(s, PrintEntry(Stdout, AlreadyRunningMessage), ctx) else []
      else
        [Normalized(s, StartupEntry(s.config.logFile), ctx)]
        + (if s.config.capturePrint && !Full(1, s.config.bufferSize)
           then [Normalized(s, PrintEntry(Stdout, RStrip(StartedMessage(s.config.logFile))), ctx)]
           else [])
    case StopCall(ctx) => if s.running then Admitted(s, ShutdownEntry(s.cellCount), ctx) else []
    case StopReturns(_) => []
    case LogCall(level, message, kwargs, ctx) => Admitted(s, ManualEntry(level, message, kwargs), ctx)
    case FrameworkLog(rec, ctx) => Admitted(s, EmitEntry(rec), ctx)
    case StreamWrite(stream, text, ctx) =>
      if s.captured && HasContent(text) then Admitted(s, PrintEntry(stream, RStrip(text)), ctx) else []
    case PreRun(info, ctx) =>
      if s.config.includeCellInfo && Accepting(s)
      then [Stamp(CellStartEntry(s.cellCount + 1, info.rawCell), ctx, true,
                  Some(CellContext(s.cellCount + 1, info.cellId)))]
      else []
    case PostRun(result, ctx) =>
      if s.config.includeCellInfo && s.currentCell.Some?
      then Admitted(s, CellEndEntry(s.cellCount, result), ctx) else []
    case WriterPass => []
  }

  /** The records a whole trace gets accepted, step by step. */
  function SubmittedRun(s: State, trace: seq<Action>): seq<Entry>
    decreases |trace|
  {
    if trace == [] then [] else Submitted(s, trace[0]) + SubmittedRun(Next(s, trace[0]), trace[1..])
  }

  lemma StartSubmits(s: State, ctx: Ctx)
    requires Inv(s)
    ensures Journal(Start(s, ctx)) == Journal(s) + Submitted(s, StartCall(ctx))
  {
    if !s.stopping {
      if s.running {
        StartWhileRunningSubmits(s, ctx);
      } else {
        StartFromIdleSubmits(s, ctx);
      }
    }
  }

  lemma StartWhileRunningSubmits(s: State, ctx: Ctx)
    requires Inv(s) && s.running
    ensures Journal(Start(s, ctx)) == Journal(s) + Submitted(s, StartCall(ctx))
  {
    var r := Start(s, ctx);
    StartWhileRunning(s, ctx);
    var added := Submitted(s, StartCall(ctx));
    assert s.captured == s.config.capturePrint;
    assert added == if s.captured && Accepting(s)
                    then [Normalized(s, PrintEntry(Stdout, AlreadyRunningMessage), ctx)] else [];
    assert r.queue == s.queue + added;
    QueueGrowth(s, r, added);
  }

  /** A step that keeps the file and appends `added` to the queue extends the journal by `added`. */
  lemma QueueGrowth(s: State, r: State, added: seq<Entry>)
    requires r.lines == s.lines && r.queue == s.queue + added
    ensures Journal(r) == Journal(s) + added
  {
  }

  lemma StartFromIdleSubmits(s: State, ctx: Ctx)
    requires Inv(s) && Idle(s)
    ensures Journal(Start(s, ctx)) == Journal(s) + Submitted(s, StartCall(ctx))
  {
    StartFromIdle(s, ctx);
    StartQueuesStartup(s, ctx);
  }

  lemma StopSubmits(s: State, ctx: Ctx)
    requires Inv(s)
    ensures Journal(Stop(s, ctx)) == Journal(s) + Submitted(s, StopCall(ctx))
  {
    if s.running {
      StopFromRunning(s, ctx);
    }
  }

  lemma StopReturnSubmits(s: State, ctx: Ctx)
    requires Inv(s)
    ensures Journal(StopReturn(s, ctx)) == Journal(s)
  {
    if s.stopping {
      StopReturnWaitsForDrain(s, ctx);
    }
  }

  lemma LogSubmits(s: State, e: Entry, ctx: Ctx)
    ensures Journal(Log(s, e, ctx)) == Journal(s) + Admitted(s, e, ctx)
  {
  }

  lemma PreRunSubmits(s: State, info: CellInfo, ctx: Ctx)
    ensures Journal(PreRunCell(s, info, ctx)) == Journal(s) + Submitted(s, PreRun(info, ctx))
  {
    var n := s.cellCount + 1;
    var counted := s.(cellCount := n, currentCell := Some(CellContext(n, info.cellId)));
    if s.config.includeCellInfo {
      LogSubmits(counted, CellStartEntry(n, info.rawCell), ctx);
    }
  }

  lemma PostRunSubmits(s: State, result: CellResult, ctx: Ctx)
    ensures Journal(PostRunCell(s, result, ctx)) == Journal(s) + Submitted(s, PostRun(result, ctx))
  {
    if s.config.includeCellInfo && s.currentCell.Some? {
      LogSubmits(s, CellEndEntry(s.cellCount, result), ctx);
    }
  }

  lemma StreamWriteSubmits(s: State, stream: Stream, text: string, ctx: Ctx)
    ensures Journal(SysWrite(s, stream, text, ctx)) == Journal(s) + Submitted(s, StreamWrite(stream, text, ctx))
  {
  }

  lemma WriterSubmits(s: State)
    ensures Journal(WriterStep(s)) == Journal(s)
  {
  }

  /**
   Every step extends the accepted entries by exactly the records it
   submits successfully, and by nothing else.
   */
  lemma NextSubmits(s: State, a: Action)
    requires Inv(s)
    ensures Journal(Next(s, a)) == Journal(s) + Submitted(s, a)
  {
    match a
    case StartCall(ctx) => StartSubmits(s, ctx);
    case StopCall(ctx) => StopSubmits(s, ctx);
    case StopReturns(ctx) => StopReturnSubmits(s, ctx);
    case LogCall(level, message, kwargs, ctx) => LogSubmits(s, ManualEntry(level, message, kwargs), ctx);
    case FrameworkLog(rec, ctx) =>
      EmitOnce(s, rec, ctx);
      LogSubmits(s, EmitEntry(rec), ctx);
    case StreamWrite(stream, text, ctx) => StreamWriteSubmits(s, stream, text, ctx);
    case PreRun(info, ctx) => PreRunSubmits(s, info, ctx);
    case PostRun(result, ctx) => PostRunSubmits(s, result, ctx);
    case WriterPass => WriterSubmits(s);
  }

  /**
   Over any interleaving, file plus queue is what was there before followed by
   every record the steps submitted successfully, in submission order.
   */
  lemma {:induction false} RunSubmits(s: State, trace: seq<Action>)
    requires Inv(s)
    ensures Journal(Run(s, trace)) == Journal(s) + SubmittedRun(s, trace)
    decreases |trace|
  {
    if trace != [] {
      var n := Next(s, trace[0]);
      NextFollows(s, trace[0]);
      NextSubmits(s, trace[0]);
      RunSubmits(n, trace[1..]);
      SeqGlue(Journal(s), Journal(n), Journal(Run(s, trace)), Submitted(s, trace[0]), SubmittedRun(n, trace[1..]));
    }
  }

  /**
   From a new logger, the file is always a prefix of the records submitted
   successfully so far: written in submission order, none twice, none
   invented.
   */
  lemma FileIsSubmittedPrefix(c: Config, trace: seq<Action>)
    ensures Run(Init(c), trace).lines <= SubmittedRun(Init(c), trace)
  {
    var r := Run(Init(c), trace);
    InitInv(c);
    RunSubmits(Init(c), trace);
    LinesPrefix(r.lines, r.queue, Journal(Init(c)), SubmittedRun(Init(c), trace));
  }

  /**
   Once a run from a new logger ends idle (every `stop` has returned), the
   file holds exactly the records submitted successfully, in submission
   order, each with its mandatory fields: no accepted record is lost.
   */
  lemma IdleFileIsSubmitted(c: Config, trace: seq<Action>)
    requires Idle(Run(Init(c), trace))
    ensures Run(Init(c), trace).lines == SubmittedRun(Init(c), trace)
    ensures AllStamped(Run(Init(c), trace).lines)
  {
    var r := Run(Init(c), trace);
    InitInv(c);
    RunFollows(Init(c), trace);
    RunSubmits(Init(c), trace);
    assert r.queue == [];
    LinesPrefix(r.lines, r.queue, Journal(Init(c)), SubmittedRun(Init(c), trace));
  }

  /** Two successive extensions of a sequence are one extension by both. */
  lemma SeqGlue<T>(j0: seq<T>, j1: seq<T>, j2: seq<T>, a: seq<T>, b: seq<T>)
    requires j1 == j0 + a && j2 == j1 + b
    ensures j2 == j0 + (a + b)
  {
  }

  /** When `lines + queue` is everything submitted after an empty start, the lines are a prefix of it. */
  lemma LinesPrefix<T>(lines: seq<T>, queue: seq<T>, start: seq<T>, all: seq<T>)
    requires start == [] && lines + queue == start + all
    ensures lines <= all
    ensures queue == [] ==> lines == all
  {
    assert start + all == all;
  }
}

=== FILE: entries.dfy ===
/**
 The entries the logger's producers hand to `_log` (handler.py): the startup
 and shutdown records, manual `log` calls, the logging-framework handler,
 the print-capture wrapper and the two cell hooks. Each builder returns the
 dictionary before `_log` normalises it. The callers also put a
 `"timestamp"` in most of these dictionaries; `_log` always overwrites that
 key (see `Records.Stamp`), so the builders leave it out.
 */
module Entries {
  import opened Strings
  import opened Records

  const EventKey: string := "event"
  const SourceKey: string := "source"
  const StreamKey: string := "stream"

  /** The two standard streams the print capture can wrap. */
  datatype Stream = Stdout | Stderr

  function StreamName(stream: Stream): string {
    match stream
    case Stdout => "stdout"
    case Stderr => "stderr"
  }

  /** Startup record, emitted by `start` once the logger is running. */
  function StartupEntry(logFile: string): (e: Entry)
    ensures e.Keys == {SeverityKey, BodyKey, "log_file"}
    ensures e[SeverityKey] == Str("INFO") && e["log_file"] == Str(logFile)
  {
    map[SeverityKey := Str("INFO"), BodyKey := Str("Notebook logger started"), "log_file" := Str(logFile)]
  }

  /** Shutdown record, emitted by `stop`; it reports how many cells have run. */
  function ShutdownEntry(cellCount: nat): (e: Entry)
    ensures e.Keys == {SeverityKey, BodyKey, "total_cells"}
    ensures e[SeverityKey] == Str("INFO") && e["total_cells"] == Int(cellCount)
  {
    map[SeverityKey := Str("INFO"), BodyKey := Str("Notebook logger stopped"), "total_cells" := Int(cellCount)]
  }

  /**
   `{"severity_text": level.upper(), "body": message, **kwargs}`: a keyword
   argument comes later in the literal, so it wins over the two defaults.
   */
  function ManualEntry(level: string, message: string, kwargs: Entry): (e: Entry)
    ensures e.Keys == {SeverityKey, BodyKey} + kwargs.Keys
    ensures forall k :: k in kwargs ==> e[k] == kwargs[k]
    ensures SeverityKey !in kwargs ==> e[SeverityKey] == Str(Upper(level))
    ensures BodyKey !in kwargs ==> e[BodyKey] == Str(message)
  {
    map[SeverityKey := Str(Upper(level)), BodyKey := Str(message)] + kwargs
  }

  /**
   What `StructuredLogHandler.emit` reads from a `logging.LogRecord`: its level
   name, the formatted message, logger name, module, function, line and the
   formatted traceback when the record carries exception info.
   */
  datatype FrameworkRecord = FrameworkRecord(
    levelName: string,
    message: string,
    loggerName: string,
    moduleName: string,
    funcName: string,
    lineNo: int,
    exception: Option<string>)

  function EmitEntry(rec: FrameworkRecord): (e: Entry)
    ensures e.Keys == {SeverityKey, BodyKey, "logger_name", "module", "function", "line"}
                      + (if rec.exception.Some? then {"exception"} else {})
    ensures e[SeverityKey] == Str(rec.levelName) && e[BodyKey] == Str(rec.message)
    ensures e["logger_name"] == Str(rec.loggerName) && e["module"] == Str(rec.moduleName)
    ensures e["function"] == Str(rec.funcName) && e["line"] == Int(rec.lineNo)
    ensures "exception" in e <==> rec.exception.Some?
    ensures rec.exception.Some? ==> e["exception"] == Str(rec.exception.value)
  {
    var e := map[SeverityKey := Str(rec.levelName), BodyKey := Str(rec.message),
                 "logger_name" := Str(rec.loggerName), "module" := Str(rec.moduleName),
                 "function" := Str(rec.funcName), "line" := Int(rec.lineNo)];
    if rec.exception.Some? then e["exception" := Str(rec.exception.value)] else e
  }

  /** The record `PrintCapture.write` submits for one non-blank write. */
  function PrintEntry(stream: Stream, body: string): (e: Entry)
    ensures e.Keys == {SeverityKey, BodyKey, SourceKey, StreamKey}
    ensures e[SeverityKey] == Str(if stream == Stderr then "ERROR" else "INFO")
    ensures e[BodyKey] == Str(body)
    ensures e[SourceKey] == Str("print") && e[StreamKey] == Str(StreamName(stream))
  {
    map[SeverityKey := Str(if StreamName(stream) == "stderr" then "ERROR" else "INFO"),
        BodyKey := Str(body),
        SourceKey := Str("print"),
        StreamKey := Str(StreamName(stream))]
  }

  function CellStartBody(number: nat): string {
    "Cell " + NatToString(number) + " execution started"
  }

  function CellEndBody(number: nat): string {
    "Cell " + NatToString(number) + " execution completed"
  }

  /** The DEBUG record `_pre_run_cell` submits for cell `number`. */
  function CellStartEntry(number: nat, rawCell: string): (e: Entry)
    ensures e.Keys == {SeverityKey, BodyKey, EventKey, "cell_preview"}
    ensures e[SeverityKey] == Str("DEBUG") && e[EventKey] == Str("cell_start")
    ensures e["cell_preview"] == Str(Preview(rawCell)) && e[BodyKey] == Str(CellStartBody(number))
  {
    map[SeverityKey := Str("DEBUG"),
        BodyKey := Str(CellStartBody(number)),
        EventKey := Str("cell_start"),
        "cell_preview" := Str(Preview(rawCell))]
  }

  /**
   What `_post_run_cell` reads from IPython's `ExecutionResult`: `success`
   and `str(error_in_exec)` when an exception was raised.
   */
  datatype CellResult = CellResult(success: bool, errorInExec: Option<string>)

  /** The record `_post_run_cell` submits: ERROR when the cell raised, DEBUG otherwise. */
  function CellEndEntry(number: nat, result: CellResult): (e: Entry)
    ensures e.Keys == {SeverityKey, BodyKey, EventKey, "success"}
                      + (if result.errorInExec.Some? then {"error"} else {})
    ensures e[BodyKey] == Str(CellEndBody(number))
    ensures e[SeverityKey] == Str(if result.errorInExec.Some? then "ERROR" else "DEBUG")
    ensures e[EventKey] == Str("cell_end") && e["success"] == Bool(result.success)
    ensures "error" in e <==> result.errorInExec.Some?
    ensures result.errorInExec.Some? ==> e["error"] == Str(result.errorInExec.value)
  {
    var e := map[SeverityKey := Str(if result.errorInExec.Some? then "ERROR" else "DEBUG"),
                 BodyKey := Str(CellEndBody(number)),
                 EventKey := Str("cell_end"),
                 "success" := Bool(result.success)];
    if result.errorInExec.Some? then e["error" := Str(result.errorInExec.value)] else e
  }

  /** Two different cells never produce the same start message. */
  lemma CellStartBodyDistinct(m: nat, n: nat)
    requires m != n
    ensures CellStartBody(m) != CellStartBody(n)
  {
    if CellStartBody(m) == CellStartBody(n) {
      var pm := "Cell " + NatToString(m);
      var pn := "Cell " + NatToString(n);
      var suffix := " execution started";
      assert CellStartBody(m) == pm + suffix;
      assert CellStartBody(n) == pn + suffix;
      assert |pm| == |pn|;
      assert pm == CellStartBody(m)[..|pm|];
      assert pn == CellStartBody(n)[..|pn|];
      assert NatToString(m) == pm[5..];
      assert NatToString(n) == pn[5..];
      NatToStringInjective(m, n);
    }
  }
}

=== FILE: lifecycle.dfy ===
/**
 Concurrent runs of the logger as sequences of atomic steps, the invariant
 every step keeps, and the lifecycle guarantees of `start`, `stop` and the
 writer thread (handler.py, `ThreadSafeStructuredLogger`).
 */
module Lifecycle {
  import opened Strings
  import opened Records
  import opened Entries
  import opened Logger

  /** One atomic step, taken by any thread. */
  datatype Action =
    | StartCall(ctx: Ctx)
    | StopCall(ctx: Ctx)
    | StopReturns(ctx: Ctx)
    | LogCall(level: string, message: string, kwargs: Entry, ctx: Ctx)
    | FrameworkLog(rec: FrameworkRecord, ctx: Ctx)
    | StreamWrite(stream: Stream, text: string, ctx: Ctx)
    | PreRun(info: CellInfo, ctx: Ctx)
    | PostRun(result: CellResult, ctx: Ctx)
    | WriterPass

  function Next(s: State, a: Action): State {
    match a
    case StartCall(ctx) => Start(s, ctx)
    case StopCall(ctx) => Stop(s, ctx)
    case StopReturns(ctx) => StopReturn(s, ctx)
    case LogCall(level, message, kwargs, ctx) => ManualLog(s, level, message, kwargs, ctx)
    case FrameworkLog(rec, ctx) => Emit(s, rec, ctx)
    case StreamWrite(stream, text, ctx) => SysWrite(s, stream, text, ctx)
    case PreRun(info, ctx) => PreRunCell(s, info, ctx)
    case PostRun(result, ctx) => PostRunCell(s, result, ctx)
    case WriterPass => WriterStep(s)
  }

  /** The state after the steps of `trace`, in order. */
  function Run(s: State, trace: seq<Action>): State
    decreases |trace|
  {
    if trace == [] then s else Run(Next(s, trace[0]), trace[1..])
  }

  /**
   Every entry ever accepted, in the order it was accepted: those already in
   the file followed by those still queued.
   */
  function Journal(s: State): seq<Entry> {
    s.lines + s.queue
  }

  predicate AllStamped(q: seq<Entry>) {
    forall i :: 0 <= i < |q| ==> Stamped(q[i])
  }

  /** Idle: stopped, and no `stop` call in progress. */
  predicate Idle(s: State) {
    !s.running && !s.stopping
  }

  /**
   What holds of every reachable state: the queue respects `buffer_size`; the
   wrappers are installed and exactly one handler is attached exactly while
   running; whenever the writer loop condition holds some writer is alive to
   act on it; an idle logger has nothing queued; every entry in the queue and
   in the file carries the mandatory fields.
   */
  predicate Inv(s: State) {
    && Bounded(s)
    && (s.running ==> !s.stopping)
    && (s.captured <==> s.running && s.config.capturePrint)
    && (s.running ==> s.handler.Some? && s.rootHandlers == {s.handler.value})
    && (!s.running ==> s.rootHandlers == {})
    && ((s.running || s.queue != []) ==> s.writers >= 1)
    && (Idle(s) ==> s.queue == [])
    && AllStamped(s.queue)
    && AllStamped(s.lines)
  }

  /** `r` follows `s`: the invariant still holds and nothing accepted was lost or reordered. */
  predicate Follows(s: State, r: State) {
    Inv(r) && Journal(s) <= Journal(r) && s.lines <= r.lines
  }

  lemma InitInv(c: Config)
    ensures Inv(Init(c)) && Journal(Init(c)) == []
  {
  }

  lemma LogFollows(s: State, e: Entry, ctx: Ctx)
    requires Inv(s)
    ensures Follows(s, Log(s, e, ctx))
    ensures Log(s, e, ctx).running == s.running && Log(s, e, ctx).stopping == s.stopping
  {
    var r := Log(s, e, ctx);
    if Accepting(s) {
      assert Journal(r) == Journal(s) + [Normalized(s, e, ctx)];
    }
  }

  lemma CaptureWriteFollows(s: State, stream: Stream, text: string, ctx: Ctx)
    requires Inv(s)
    ensures Follows(s, CaptureWrite(s, stream, text, ctx).0)
    ensures CaptureWrite(s, stream, text, ctx).0.running == s.running
    ensures CaptureWrite(s, stream, text, ctx).0.stopping == s.stopping
  {
    var f := Forward(s, stream, text);
    assert Inv(f) && Journal(f) == Journal(s);
    if HasContent(text) {
      LogFollows(f, PrintEntry(stream, RStrip(text)), ctx);
    }
  }

  lemma SysWriteFollows(s: State, stream: Stream, text: string, ctx: Ctx)
    requires Inv(s)
    ensures Follows(s, SysWrite(s, stream, text, ctx))
    ensures SysWrite(s, stream, text, ctx).running == s.running
    ensures SysWrite(s, stream, text, ctx).stopping == s.stopping
  {
    if s.captured {
      CaptureWriteFollows(s, stream, text, ctx);
    }
  }

  lemma PrintFollows(s: State, msg: string, ctx: Ctx)
    requires Inv(s)
    ensures Follows(s, Print(s, msg, ctx))
    ensures Print(s, msg, ctx).running == s.running && Print(s, msg, ctx).stopping == s.stopping
  {
    var a := SysWrite(s, Stdout, msg, ctx);
    SysWriteFollows(s, Stdout, msg, ctx);
    SysWriteFollows(a, Stdout, "\n", ctx);
  }

  lemma {:induction false} LogEachFollows(s: State, e: Entry, ctx: Ctx, n: nat)
    requires Inv(s)
    ensures Follows(s, LogEach(s, e, ctx, n))
    decreases n
  {
    if n > 0 {
      LogFollows(s, e, ctx);
      LogEachFollows(Log(s, e, ctx), e, ctx, n - 1);
    }
  }

  lemma EmitFollows(s: State, rec: FrameworkRecord, ctx: Ctx)
    requires Inv(s)
    ensures Follows(s, Emit(s, rec, ctx))
  {
    LogEachFollows(s, EmitEntry(rec), ctx, |s.rootHandlers|);
  }

  /**
   Before it logs, `start` from idle has set `running`, added one writer and
   attached exactly one handler, newer than every handler made before; the
   wrappers are installed exactly when `capture_print`; nothing accepted is
   lost and the invariant already holds.
   */
  lemma StartedUpInv(s: State)
    requires Inv(s) && Idle(s)
    ensures var up := StartedUp(s);
            && Inv(up) && Journal(up) == Journal(s) && up.lines == s.lines
            && up.running && up.writers == s.writers + 1
            && up.handler == Some(s.handlersMade) && up.rootHandlers == {s.handlersMade}
            && s.handlersMade !in s.rootHandlers && up.handlersMade == s.handlersMade + 1
            && up.captured == s.config.capturePrint
            && up.config == s.config && up.currentCell == s.currentCell
  {
  }

  lemma StartFollows(s: State, ctx: Ctx)
    requires Inv(s)
    ensures Follows(s, Start(s, ctx))
  {
    if !s.stopping {
      if s.running {
        PrintFollows(s, AlreadyRunningMessage, ctx);
      } else {
        var up := StartedUp(s);
        var logged := Log(up, StartupEntry(s.config.logFile), ctx);
        StartedUpInv(s);
        LogFollows(up, StartupEntry(s.config.logFile), ctx);
        PrintFollows(logged, StartedMessage(s.config.logFile), ctx);
      }
    }
  }

  lemma StopFollows(s: State, ctx: Ctx)
    requires Inv(s)
    ensures Follows(s, Stop(s, ctx))
  {
    if s.running {
      LogFollows(s, ShutdownEntry(s.cellCount), ctx);
    }
  }

  lemma StopReturnFollows(s: State, ctx: Ctx)
    requires Inv(s)
    ensures Follows(s, StopReturn(s, ctx))
  {
    if s.stopping && s.queue == [] {
      PrintFollows(s.(stopping := false), StoppedMessage, ctx);
    }
  }

  lemma NextFollows(s: State, a: Action)
    requires Inv(s)
    ensures Follows(s, Next(s, a))
  {
    match a
    case StartCall(ctx) => StartFollows(s, ctx);
    case StopCall(ctx) => StopFollows(s, ctx);
    case StopReturns(ctx) => StopReturnFollows(s, ctx);
    case LogCall(level, message, kwargs, ctx) => LogFollows(s, ManualEntry(level, message, kwargs), ctx);
    case FrameworkLog(rec, ctx) => EmitFollows(s, rec, ctx);
    case StreamWrite(stream, text, ctx) => SysWriteFollows(s, stream, text, ctx);
    case PreRun(info, ctx) => PreRunFollows(s, info, ctx);
    case PostRun(result, ctx) => PostRunFollows(s, result, ctx);
    case WriterPass => WriterFollows(s);
  }

  lemma PreRunFollows(s: State, info: CellInfo, ctx: Ctx)
    requires Inv(s)
    ensures Follows(s, PreRunCell(s, info, ctx))
  {
    var n := s.cellCount + 1;
    var counted := s.(cellCount := n, currentCell := Some(CellContext(n, info.cellId)));
    assert Inv(counted) && Journal(counted) == Journal(s);
    if s.config.includeCellInfo {
      LogFollows(counted, CellStartEntry(n, info.rawCell), ctx);
    }
  }

  lemma PostRunFollows(s: State, result: CellResult, ctx: Ctx)
    requires Inv(s)
    ensures Follows(s, PostRunCell(s, result, ctx))
  {
    if s.config.includeCellInfo && s.currentCell.Some? {
      LogFollows(s, CellEndEntry(s.cellCount, result), ctx);
    }
  }

  lemma WriterFollows(s: State)
    requires Inv(s)
    ensures Follows(s, WriterStep(s))
  {
  }

  /**
   Over any interleaving of steps the invariant is kept, and the accepted
   entries only ever grow at the end: the file is always a prefix of the
   journal, so an entry accepted before another is written before it, and no
   entry is written twice or lost from the journal.
   */
  lemma {:induction false} RunFollows(s: State, trace: seq<Action>)
    requires Inv(s)
    ensures Follows(s, Run(s, trace))
    decreases |trace|
  {
    if trace != [] {
      var n := Next(s, trace[0]);
      NextFollows(s, trace[0]);
      RunFollows(n, trace[1..]);
    }
  }

  /** The line end `print` writes never becomes a record. */
  lemma NewlineIsBlank()
    ensures !HasContent("\n")
  {
    StripEmptyIffBlank("\n");
  }

  /** A message that starts with a visible character is recorded when written through the wrapper. */
  lemma VisibleHasContent(msg: string)
    requires msg != [] && !IsSpace(msg[0])
    ensures HasContent(msg)
  {
    StripEmptyIffBlank(msg);
  }

  /**
   `print(msg)` for a message with visible content: the text and a line end
   reach the original stdout, and exactly one record, built from the message,
   is submitted when the wrappers are installed.
   */
  lemma PrintEffect(s: State, msg: string, ctx: Ctx)
    requires HasContent(msg)
    ensures var r := Print(s, msg, ctx);
            && r == s.(stdoutText := s.stdoutText + msg + "\n", queue := r.queue)
            && (!(s.captured && Accepting(s)) ==> r.queue == s.queue)
            && (s.captured && Accepting(s) ==>
                  r.queue == s.queue + [Normalized(s, PrintEntry(Stdout, RStrip(msg)), ctx)])
  {
    NewlineIsBlank();
  }

  /** The state `start` prints its notice from, when it begins idle. */
  lemma StartLogsFirst(s: State, ctx: Ctx)
    requires Idle(s) && s.queue == []
    ensures Start(s, ctx)
         == Print(StartedUp(s).(queue := [Normalized(s, StartupEntry(s.config.logFile), ctx)]),
                  StartedMessage(s.config.logFile), ctx)
  {
    var up := StartedUp(s);
    var e := StartupEntry(s.config.logFile);
    assert up.queue == [] && Accepting(up);
    assert Normalized(up, e, ctx) == Normalized(s, e, ctx);
    assert Log(up, e, ctx) == up.(queue := [Normalized(s, e, ctx)]);
  }

  /**
   `start` on a stopped logger: one writer and one fresh handler are added,
   the wrappers are installed exactly when `capture_print`, nothing is written
   to the file, and the notice reaches the original stdout. The configuration,
   the cell counter and the current cell are left as they were.
   */
  lemma StartFromIdle(s: State, ctx: Ctx)
    requires Inv(s) && Idle(s)
    ensures var r := Start(s, ctx);
            && r.running && Inv(r)
            && r.writers == s.writers + 1
            && !r.stopping
            && r.handler == Some(s.handlersMade) && r.rootHandlers == {s.handlersMade}
            && r.handlersMade == s.handlersMade + 1
            && r.captured == s.config.capturePrint
            && r.config == s.config
            && r.cellCount == s.cellCount && r.currentCell == s.currentCell
            && r.lines == s.lines
            && r.stdoutText == s.stdoutText + StartedMessage(s.config.logFile) + "\n"
            && r.stderrText == s.stderrText
  {
    StartFollows(s, ctx);
    StartedUpInv(s);
    StartLogsFirst(s, ctx);
    var logged := StartedUp(s).(queue := [Normalized(s, StartupEntry(s.config.logFile), ctx)]);
    VisibleHasContent(StartedMessage(s.config.logFile));
    PrintEffect(logged, StartedMessage(s.config.logFile), ctx);
  }

  /**
   `running` is set before anything is logged, so the startup record is
   accepted as the queue's head; the closing `print` is recorded after it
   exactly when the wrappers are installed and the queue has room.
   */
  lemma StartQueuesStartup(s: State, ctx: Ctx)
    requires Inv(s) && Idle(s)
    ensures var r := Start(s, ctx);
            var startup := Normalized(s, StartupEntry(s.config.logFile), ctx);
            var notice := Normalized(s, PrintEntry(Stdout, RStrip(StartedMessage(s.config.logFile))), ctx);
            r.queue == [startup] + (if s.config.capturePrint && !Full(1, s.config.bufferSize) then [notice] else [])
  {
    StartedUpInv(s);
    StartLogsFirst(s, ctx);
    var startup := Normalized(s, StartupEntry(s.config.logFile), ctx);
    var msg := StartedMessage(s.config.logFile);
    VisibleHasContent(msg);
    PrintAfterOne(StartedUp(s).(queue := [startup]), msg, ctx);
  }

  /** The notice `print`ed after one queued record, by a running logger. */
  lemma PrintAfterOne(l: State, msg: string, ctx: Ctx)
    requires HasContent(msg) && |l.queue| == 1 && l.running
    ensures Print(l, msg, ctx).queue
         == l.queue + (if l.captured && !Full(1, l.config.bufferSize)
                       then [Normalized(l, PrintEntry(Stdout, RStrip(msg)), ctx)] else [])
  {
    PrintEffect(l, msg, ctx);
  }

  /** The startup record names the log file; `_log` never overwrites that key. */
  lemma StartupNamesLogFile(s: State, ctx: Ctx)
    ensures Normalized(s, StartupEntry(s.config.logFile), ctx)["log_file"] == Str(s.config.logFile)
  {
    assert "log_file" !in StampedKeys(s.config.includeCellInfo, s.currentCell);
  }

  /**
   `start` on a running logger starts no writer, registers nothing and leaves
   the streams alone: it only prints its notice, which becomes a record when
   the wrappers are installed.
   */
  lemma StartWhileRunning(s: State, ctx: Ctx)
    requires Inv(s) && s.running
    ensures var r := Start(s, ctx);
            && r == s.(stdoutText := s.stdoutText + AlreadyRunningMessage + "\n", queue := r.queue)
            && (!(s.config.capturePrint && Accepting(s)) ==> r.queue == s.queue)
            && (s.config.capturePrint && Accepting(s) ==>
                  r.queue == s.queue + [Normalized(s, PrintEntry(Stdout, AlreadyRunningMessage), ctx)])
  {
    VisibleHasContent(AlreadyRunningMessage);
    assert RStrip(AlreadyRunningMessage) == AlreadyRunningMessage;
    PrintEffect(s, AlreadyRunningMessage, ctx);
  }

  /**
   `stop` on a running logger: the shutdown record, carrying the cell count,
   is offered while `running` still holds; then `running` is cleared, the
   handler detached and the original streams restored.
   */
  lemma StopFromRunning(s: State, ctx: Ctx)
    requires Inv(s) && s.running
    ensures var r := Stop(s, ctx);
            && Inv(r)
            && r == s.(running := false, stopping := true, rootHandlers := {}, captured := false, queue := r.queue)
            && (Full(|s.queue|, s.config.bufferSize) ==> r.queue == s.queue)
            && (!Full(|s.queue|, s.config.bufferSize) ==>
                  && r.queue == s.queue + [Normalized(s, ShutdownEntry(s.cellCount), ctx)]
                  && r.queue[|s.queue|]["total_cells"] == Int(s.cellCount))
  {
    StopFollows(s, ctx);
  }

  /** A second `stop` adds nothing: not another shutdown record, not any other change. */
  lemma StopIdempotent(s: State, c1: Ctx, c2: Ctx)
    ensures Stop(Stop(s, c1), c2) == Stop(s, c1)
    ensures !s.running ==> Stop(s, c1) == s
  {
  }

  /**
   The end of `stop` waits for the queue: it cannot return while anything is
   queued, and once it does, its notice goes to the restored stdout and is
   not recorded.
   */
  lemma StopReturnWaitsForDrain(s: State, ctx: Ctx)
    requires Inv(s) && s.stopping
    ensures s.queue != [] ==> StopReturn(s, ctx) == s
    ensures s.queue == [] ==>
              StopReturn(s, ctx) == s.(stopping := false, stdoutText := s.stdoutText + StoppedMessage + "\n")
  {
    if s.queue == [] {
      VisibleHasContent(StoppedMessage);
      PrintEffect(s.(stopping := false), StoppedMessage, ctx);
    }
  }

  /**
   The `_log_writer` loop of a writer that finds `running` cleared: it writes
   the queued entries one line each, head first, and then leaves the loop.
   */
  method WriterLoop(s: State) returns (r: State)
    requires Inv(s) && !s.running && s.writers > 0
    ensures Inv(r)
    ensures r == s.(queue := [], lines := s.lines + s.queue, writers := s.writers - 1)
  {
    r := s;
    while r.running || r.queue != []
      invariant Inv(r)
      invariant r == s.(queue := r.queue, lines := r.lines)
      invariant r.lines + r.queue == s.lines + s.queue
      decreases |r.queue|
    {
      WriterFollows(r);
      r := WriterStep(r);
    }
    assert r.lines == s.lines + s.queue;
    WriterFollows(r);
    r := WriterStep(r);
  }

  /**
   A whole `stop` of a running logger with its writer draining the queue: it
   returns idle, with every entry queued before the call and the shutdown
   record (when there was room) written in order, the handler detached, the
   original streams back in place and the writer gone.
   */
  method StopAndDrain(s: State, ctx: Ctx) returns (r: State)
    requires Inv(s) && s.running
    ensures Inv(r) && Idle(r) && r.queue == []
    ensures r.rootHandlers == {} && !r.captured
    ensures r.lines == Journal(s) + (if Full(|s.queue|, s.config.bufferSize) then []
                                     else [Normalized(s, ShutdownEntry(s.cellCount), ctx)])
    ensures r.writers == s.writers - 1
    ensures r.stdoutText == s.stdoutText + StoppedMessage + "\n"
  {
    StopFromRunning(s, ctx);
    r := Stop(s, ctx);
    r := WriterLoop(r);
    StopReturnWaitsForDrain(r, ctx);
    StopReturnFollows(r, ctx);
    r := StopReturn(r, ctx);
  }

  /** The writer count and queue length across `start`, `stop` and the drain. */
  lemma RestartStates(s: State, ctx: Ctx)
    requires Inv(s) && Idle(s) && !s.config.capturePrint && !Full(1, s.config.bufferSize)
    ensures var s4 := WriterStep(WriterStep(Stop(Start(s, ctx), ctx)));
            && s4.writers == s.writers + 1 && s4.queue == [] && s4.stopping && Inv(s4)
  {
    StartFromIdle(s, ctx);
    StartQueuesStartup(s, ctx);
    var s1 := Start(s, ctx);
    StopFromRunning(s1, ctx);
    var s2 := Stop(s1, ctx);
    assert |s2.queue| == 2;
    WriterFollows(s2);
    WriterFollows(WriterStep(s2));
  }

  /** Once `stop` has returned, the next `start` adds one writer to those still looping. */
  lemma RestartAfterDrain(s: State, ctx: Ctx)
    requires Inv(s) && s.stopping && s.queue == []
    ensures Start(StopReturn(s, ctx), ctx).writers == s.writers + 1
  {
    StopReturnWaitsForDrain(s, ctx);
    StopReturnFollows(s, ctx);
    StartFromIdle(StopReturn(s, ctx), ctx);
  }

  /**
   `stop` waits for the queue, not for the writer thread, so a `start` right
   after it can find the previous writer still in its loop: `start`, `stop`,
   two writer passes, the end of `stop` and `start` again leave two writers
   serving the queue where one was started per `start` call.
   */
  lemma RestartCanLeaveTwoWriters(s: State, ctx: Ctx)
    requires Inv(s) && Idle(s) && !s.config.capturePrint && !Full(1, s.config.bufferSize)
    ensures var s4 := WriterStep(WriterStep(Stop(Start(s, ctx), ctx)));
            Start(StopReturn(s4, ctx), ctx).writers == s.writers + 2
  {
    RestartStates(s, ctx);
    RestartAfterDrain(WriterStep(WriterStep(Stop(Start(s, ctx), ctx))), ctx);
  }
}

=== FILE: logger.dfy ===
/**
 `ThreadSafeStructuredLogger` (handler.py) as an immutable state and one pure
 function per atomic step. Threads are not modelled: a concurrent run is a
 sequence of these steps (see the `Lifecycle` module). The lock only matters
 while `stop` waits for the queue to drain, which the `stopping` flag records.
 */
module Logger {
  import opened Strings
  import opened Records
  import opened Entries

  /** The constructor's arguments. */
  datatype Config = Config(
    logFile: string,
    bufferSize: int,
    includeCellInfo: bool,
    capturePrint: bool)

  /** `ThreadSafeStructuredLogger()` with every argument left at its default. */
  const DefaultConfig: Config := Config("notebook.log", 1000, true, false)

  /**
   The logger and the process state it touches.
   - `running`: the flag the writer loop and `_log` test.
   - `stopping`: `stop` holds the lock and is blocked in `log_queue.join()`.
   - `queue`: the contents of `log_queue`, head first.
   - `lines`: the entries the writer has appended to the log file, in order.
   - `writers`: writer threads still inside their `while` loop.
   - `handler`: `self.log_handler`, identified by the number of handlers made before it.
   - `rootHandlers`: which of this logger's handlers are attached to the root logger.
   - `captured`: `sys.stdout`/`sys.stderr` are the `PrintCapture` wrappers.
   - `stdoutText`/`stderrText`: what reached the original streams.
   */
  datatype State = State(
    config: Config,
    running: bool,
    stopping: bool,
    queue: seq<Entry>,
    lines: seq<Entry>,
    writers: nat,
    handler: Option<nat>,
    rootHandlers: set<nat>,
    handlersMade: nat,
    captured: bool,
    stdoutText: string,
    stderrText: string,
    cellCount: nat,
    currentCell: Option<CellContext>)

  /** A freshly constructed logger: stopped, empty queue, nothing registered. */
  function Init(config: Config): (s: State)
    ensures s.config == config && s.handler == None
    ensures !s.running && !s.stopping && s.queue == [] && s.lines == []
    ensures s.writers == 0 && s.rootHandlers == {} && !s.captured
    ensures s.cellCount == 0 && s.currentCell == None
  {
    State(config, false, false, [], [], 0, None, {}, 0, false, "", "", 0, None)
  }

  /** The queue never holds more than `buffer_size` entries (when that is positive). */
  predicate Bounded(s: State) {
    s.config.bufferSize > 0 ==> |s.queue| <= s.config.bufferSize
  }

  /** `_log` keeps an entry exactly when the logger runs and `put_nowait` does not raise `Full`. */
  predicate Accepting(s: State) {
    s.running && !Full(|s.queue|, s.config.bufferSize)
  }

  /** The entry `_log` would queue for `entry` in state `s`. */
  function Normalized(s: State, entry: Entry, ctx: Ctx): Entry {
    Stamp(entry, ctx, s.config.includeCellInfo, s.currentCell)
  }

  /**
   `_log`: ignored while stopped; otherwise normalised and appended, unless the
   queue is full, in which case the newest entry is dropped without an error.
   Nothing but the queue ever changes.
   */
  function Log(s: State, entry: Entry, ctx: Ctx): (r: State)
    ensures !s.running ==> r == s
    ensures s.running && Full(|s.queue|, s.config.bufferSize) ==> r == s
    ensures Accepting(s) ==> r == s.(queue := s.queue + [Normalized(s, entry, ctx)])
    ensures Bounded(s) ==> Bounded(r)
  {
    if !s.running then s
    else
      var e := Normalized(s, entry, ctx);
      if Full(|s.queue|, s.config.bufferSize) then s else s.(queue := s.queue + [e])
  }

  /** One write into the original stream behind `stream`. */
  function Forward(s: State, stream: Stream, text: string): (r: State)
    ensures stream == Stdout ==> r == s.(stdoutText := s.stdoutText + text)
    ensures stream == Stderr ==> r == s.(stderrText := s.stderrText + text)
  {
    match stream
    case Stdout => s.(stdoutText := s.stdoutText + text)
    case Stderr => s.(stderrText := s.stderrText + text)
  }

  /** `text and text.strip()`: the write carries something besides whitespace. */
  predicate HasContent(text: string) {
    text != [] && Strip(text) != []
  }

  /**
   `PrintCapture.write`: forward `text` verbatim to the original stream, submit
   a record when `text` is not blank, and report `len(text)` as written.
   */
  function CaptureWrite(s: State, stream: Stream, text: string, ctx: Ctx): (r: (State, nat))
    ensures r.1 == |text|
    ensures stream == Stdout ==> r.0.stdoutText == s.stdoutText + text && r.0.stderrText == s.stderrText
    ensures stream == Stderr ==> r.0.stderrText == s.stderrText + text && r.0.stdoutText == s.stdoutText
    ensures !(HasContent(text) && Accepting(s)) ==> r.0.queue == s.queue
    ensures HasContent(text) && Accepting(s) ==>
              r.0.queue == s.queue + [Normalized(s, PrintEntry(stream, RStrip(text)), ctx)]
    ensures r.0 == Forward(s, stream, text).(queue := r.0.queue)
  {
    var forwarded := Forward(s, stream, text);
    var logged := if HasContent(text) then Log(forwarded, PrintEntry(stream, RStrip(text)), ctx) else forwarded;
    (logged, |text|)
  }

  /**
   A write to `sys.stdout` or `sys.stderr`: through the wrapper when capture is
   installed. Either way the original stream receives exactly `text` and the
   other stream nothing; a record is added only through the wrapper.
   */
  function SysWrite(s: State, stream: Stream, text: string, ctx: Ctx): (r: State)
    ensures stream == Stdout ==> r.stdoutText == s.stdoutText + text && r.stderrText == s.stderrText
    ensures stream == Stderr ==> r.stderrText == s.stderrText + text && r.stdoutText == s.stdoutText
    ensures !(s.captured && HasContent(text) && Accepting(s)) ==> r.queue == s.queue
    ensures s.captured && HasContent(text) && Accepting(s) ==>
              r.queue == s.queue + [Normalized(s, PrintEntry(stream, RStrip(text)), ctx)]
    ensures r == s.(stdoutText := r.stdoutText, stderrText := r.stderrText, queue := r.queue)
  {
    if s.captured then CaptureWrite(s, stream, text, ctx).0 else Forward(s, stream, text)
  }

  /** `print(msg)`: writes `msg`, then the line end, to `sys.stdout`. */
  function Print(s: State, msg: string, ctx: Ctx): State {
    SysWrite(SysWrite(s, Stdout, msg, ctx), Stdout, "\n", ctx)
  }

  const AlreadyRunningMessage: string := "Logger already running"
  const StoppedMessage: string := "Structured logging stopped"

  function StartedMessage(logFile: string): string {
    "Structured logging started: " + logFile
  }

  /**
   `start`. While `stop` holds the lock the call cannot proceed (a stutter).
   While running it only prints a notice. Otherwise it sets `running`, starts a
   writer, attaches a new handler to the root logger, installs the stream
   wrappers when `capture_print`, logs the startup record and prints a notice.
   */
  function Start(s: State, ctx: Ctx): State {
    if s.stopping then s
    else if s.running then Print(s, AlreadyRunningMessage, ctx)
    else
      var logged := Log(StartedUp(s), StartupEntry(s.config.logFile), ctx);
      Print(logged, StartedMessage(s.config.logFile), ctx)
  }

  /**
   The state `start` reaches from idle before it logs or prints anything:
   running, one more writer, a new handler attached to the root logger and,
   when `capture_print`, the stream wrappers installed.
   */
  function StartedUp(s: State): State {
    var id := s.handlersMade;
    s.(running := true,
       writers := s.writers + 1,
       handler := Some(id),
       rootHandlers := s.rootHandlers + {id},
       handlersMade := id + 1,
       captured := s.captured || s.config.capturePrint)
  }

  /**
   The part of `stop` before `log_queue.join()`: log the shutdown record,
   clear `running`, detach the handler and restore the original streams.
   Ignored when not running.
   */
  function Stop(s: State, ctx: Ctx): State {
    if !s.running then s
    else
      var logged := Log(s, ShutdownEntry(s.cellCount), ctx);
      logged.(running := false,
              stopping := true,
              rootHandlers := if logged.handler.Some? then logged.rootHandlers - {logged.handler.value}
                              else logged.rootHandlers,
              captured := if logged.config.capturePrint then false else logged.captured)
  }

  /**
   The rest of `stop`: `log_queue.join()` returns once every queued entry has
   been written, then a final notice is printed. Until then this step stutters.
   */
  function StopReturn(s: State, ctx: Ctx): State {
    if s.stopping && s.queue == [] then Print(s.(stopping := false), StoppedMessage, ctx) else s
  }

  /**
   One pass of the `_log_writer` loop of some writer thread. The loop exits when
   the logger is stopped and the queue is empty; a `get` on an empty queue
   times out and the loop goes round again; otherwise the head entry is
   appended to the file as one line.
   */
  function WriterStep(s: State): (r: State)
    ensures r.lines + r.queue == s.lines + s.queue
    ensures s.writers > 0 && s.queue != [] ==>
              r == s.(queue := s.queue[1..], lines := s.lines + [s.queue[0]])
    ensures r.writers < s.writers <==> s.writers > 0 && !s.running && s.queue == []
    ensures r.writers < s.writers ==> r == s.(writers := s.writers - 1)
    ensures s.writers == 0 || (s.running && s.queue == []) ==> r == s
  {
    if s.writers == 0 then s
    else if !(s.running || s.queue != []) then s.(writers := s.writers - 1)
    else if s.queue == [] then s
    else s.(queue := s.queue[1..], lines := s.lines + [s.queue[0]])
  }

  /** `log(level, message, **kwargs)`. */
  function ManualLog(s: State, level: string, message: string, kwargs: Entry, ctx: Ctx): State {
    Log(s, ManualEntry(level, message, kwargs), ctx)
  }

  /** Each attached `StructuredLogHandler` receives the record and calls `_log`. */
  function LogEach(s: State, entry: Entry, ctx: Ctx, handlers: nat): State
    decreases handlers
  {
    if handlers == 0 then s else LogEach(Log(s, entry, ctx), entry, ctx, handlers - 1)
  }

  /** A `logging` record routed to the root logger's handlers. */
  function Emit(s: State, rec: FrameworkRecord, ctx: Ctx): State {
    LogEach(s, EmitEntry(rec), ctx, |s.rootHandlers|)
  }

  /** What `_pre_run_cell` reads from IPython's `ExecutionInfo`. */
  datatype CellInfo = CellInfo(cellId: Option<string>, rawCell: string)

  /** `_pre_run_cell`: count the cell, remember it, and log its start when enabled. */
  function PreRunCell(s: State, info: CellInfo, ctx: Ctx): (r: State)
    ensures r.cellCount == s.cellCount + 1
    ensures r.currentCell == Some(CellContext(s.cellCount + 1, info.cellId))
    ensures r == s.(cellCount := r.cellCount, currentCell := r.currentCell, queue := r.queue)
  {
    var n := s.cellCount + 1;
    var counted := s.(cellCount := n, currentCell := Some(CellContext(n, info.cellId)));
    if s.config.includeCellInfo then Log(counted, CellStartEntry(n, info.rawCell), ctx) else counted
  }

  /** `_post_run_cell`: log the end of the current cell when enabled, then forget it. */
  function PostRunCell(s: State, result: CellResult, ctx: Ctx): (r: State)
    ensures r.currentCell == None && r.cellCount == s.cellCount
    ensures r == s.(currentCell := None, queue := r.queue)
  {
    var logged := if s.config.includeCellInfo && s.currentCell.Some?
                  then Log(s, CellEndEntry(s.cellCount, result), ctx) else s;
    logged.(currentCell := None)
  }
}

=== FILE: producers.dfy ===
/**
 What the producers of handler.py put into the queue once `_log` has
 normalised their dictionaries: manual `log` calls, the logging-framework
 handler, the print-capture wrapper and the cell hooks.
 */
module Producers {
  import opened Strings
  import opened Records
  import opened Entries
  import opened Logger
  import opened Lifecycle

  function Last(q: seq<Entry>): Entry
    requires q != []
  {
    q[|q| - 1]
  }

  /**
   `log(level, message, **kwargs)` while accepting queues one record:
   `severity_text` and `body` come from the keyword arguments when given
   there and from `level.upper()` and `message` otherwise; every other keyword
   argument is kept unless `_log` stamps that key; the stamped keys carry the
   caller's time and thread. When not accepting, nothing changes.
   */
  lemma ManualLogRecord(s: State, level: string, message: string, kwargs: Entry, ctx: Ctx)
    ensures !Accepting(s) ==> ManualLog(s, level, message, kwargs, ctx) == s
    ensures Accepting(s) ==>
              var r := ManualLog(s, level, message, kwargs, ctx);
              var e := Last(r.queue);
              var stamped := StampedKeys(s.config.includeCellInfo, s.currentCell);
              && r.queue[..|s.queue|] == s.queue && |r.queue| == |s.queue| + 1
              && e[SeverityKey] == (if SeverityKey in kwargs then kwargs[SeverityKey] else Str(Upper(level)))
              && e[BodyKey] == (if BodyKey in kwargs then kwargs[BodyKey] else Str(message))
              && (forall k :: k in kwargs && k !in stamped ==> e[k] == kwargs[k])
              && e[TimestampKey] == Str(ctx.timestamp)
              && e[ThreadIdKey] == Int(ctx.threadId)
              && e[ThreadNameKey] == Str(ctx.threadName)
  {
    if Accepting(s) {
      var r := ManualLog(s, level, message, kwargs, ctx);
      assert r.queue[..|s.queue|] == s.queue;
    }
  }

  /**
   A framework record reaches `_log` once per attached handler, and in every
   reachable state that is at most once: a repeated `start` never leaves two
   handlers attached, so no record is duplicated.
   */
  lemma EmitOnce(s: State, rec: FrameworkRecord, ctx: Ctx)
    requires Inv(s)
    ensures Emit(s, rec, ctx) == Log(s, EmitEntry(rec), ctx)
  {
    if s.running {
      assert |s.rootHandlers| == 1;
    }
  }

  /**
   A write to a wrapped stream always reaches the original stream unchanged
   and reports its full length; while accepting, it adds a record exactly
   when the text is not all whitespace, and that record holds the text with
   trailing whitespace removed, ERROR for stderr and INFO for stdout, the
   source `print` and the stream's name.
   */
  lemma CaptureWriteRecord(s: State, stream: Stream, text: string, ctx: Ctx)
    requires Accepting(s)
    ensures var r := CaptureWrite(s, stream, text, ctx);
            && r.1 == |text|
            && (IsBlank(text) <==> r.0.queue == s.queue)
            && (!IsBlank(text) ==>
                  && |r.0.queue| == |s.queue| + 1 && r.0.queue[..|s.queue|] == s.queue
                  && Last(r.0.queue)[BodyKey] == Str(RStrip(text))
                  && Last(r.0.queue)[SeverityKey] == Str(if stream == Stderr then "ERROR" else "INFO")
                  && Last(r.0.queue)[SourceKey] == Str("print")
                  && Last(r.0.queue)[StreamKey] == Str(StreamName(stream)))
  {
    StripEmptyIffBlank(text);
    var r := CaptureWrite(s, stream, text, ctx);
    if !IsBlank(text) {
      var p := PrintEntry(stream, RStrip(text));
      var e := Normalized(s, p, ctx);
      assert r.0.queue == s.queue + [e];
      assert r.0.queue[..|s.queue|] == s.queue;
      NotStamped(p, ctx, s.config.includeCellInfo, s.currentCell);
    }
  }

  /** The four keys of a print record survive normalisation unchanged. */
  lemma NotStamped(p: Entry, ctx: Ctx, includeCellInfo: bool, cell: Option<CellContext>)
    requires p.Keys == {SeverityKey, BodyKey, SourceKey, StreamKey}
    ensures var e := Stamp(p, ctx, includeCellInfo, cell);
            e[SeverityKey] == p[SeverityKey] && e[BodyKey] == p[BodyKey]
            && e[SourceKey] == p[SourceKey] && e[StreamKey] == p[StreamKey]
  {
    var keys := StampedKeys(includeCellInfo, cell);
    assert keys <= {TimestampKey, ThreadIdKey, ThreadNameKey, CellNumberKey, CellIdKey};
    assert SeverityKey !in keys && BodyKey !in keys && SourceKey !in keys && StreamKey !in keys;
  }

  /**
   Writing "hello\n" to a captured stdout prints "hello\n" on the original
   stdout and, while accepting, queues exactly one INFO record whose body is
   "hello".
   */
  lemma HelloOnStdout(s: State, ctx: Ctx)
    requires s.captured && Accepting(s)
    ensures var r := SysWrite(s, Stdout, "hello\n", ctx);
            && r.stdoutText == s.stdoutText + "hello\n"
            && |r.queue| == |s.queue| + 1
            && Last(r.queue)[BodyKey] == Str("hello")
            && Last(r.queue)[SeverityKey] == Str("INFO")
            && Last(r.queue)[StreamKey] == Str("stdout")
  {
    HelloRStrip();
    CaptureWriteRecord(s, Stdout, "hello\n", ctx);
  }

  lemma HelloRStrip()
    ensures RStrip("hello\n") == "hello" && !IsBlank("hello\n")
  {
    var t := "hello\n";
    assert IsSpace(t[|t| - 1]) && t[..|t| - 1] == "hello";
    assert !IsSpace("hello"[4]);
    assert !IsSpace(t[0]);
  }

  /**
   `_pre_run_cell` always counts the cell and makes it current; with cell
   info enabled and the queue accepting, its start record carries the new
   cell's number, its cell id when truthy, its start message and the first
   100 characters of the cell source as preview.
   */
  lemma PreRunCellRecord(s: State, info: CellInfo, ctx: Ctx)
    ensures !s.config.includeCellInfo ==> PreRunCell(s, info, ctx).queue == s.queue
    ensures !Accepting(s) ==> PreRunCell(s, info, ctx).queue == s.queue
    ensures s.config.includeCellInfo && Accepting(s) ==>
              var r := PreRunCell(s, info, ctx);
              var e := Last(r.queue);
              && |r.queue| == |s.queue| + 1
              && r.queue[..|s.queue|] == s.queue
              && e[CellNumberKey] == Int(s.cellCount + 1)
              && (CellIdKey in e <==> Truthy(info.cellId))
              && (Truthy(info.cellId) ==> e[CellIdKey] == Str(info.cellId.value))
              && e[EventKey] == Str("cell_start")
              && e[SeverityKey] == Str("DEBUG")
              && e[BodyKey] == Str(CellStartBody(s.cellCount + 1))
              && e["cell_preview"] == Str(Preview(info.rawCell))
  {
    if s.config.includeCellInfo && Accepting(s) {
      PreRunCellQueue(s, info, ctx);
      CellStartStamped(s.cellCount + 1, info, ctx);
    }
  }

  lemma PreRunCellQueue(s: State, info: CellInfo, ctx: Ctx)
    requires s.config.includeCellInfo && Accepting(s)
    ensures PreRunCell(s, info, ctx).queue
         == s.queue + [Stamp(CellStartEntry(s.cellCount + 1, info.rawCell), ctx, true,
                             Some(CellContext(s.cellCount + 1, info.cellId)))]
  {
  }

  /** The start record of cell `n` once `_log` has stamped it with that cell's context. */
  lemma CellStartStamped(n: nat, info: CellInfo, ctx: Ctx)
    ensures var e := Stamp(CellStartEntry(n, info.rawCell), ctx, true, Some(CellContext(n, info.cellId)));
            && e[CellNumberKey] == Int(n)
            && (CellIdKey in e <==> Truthy(info.cellId))
            && (Truthy(info.cellId) ==> e[CellIdKey] == Str(info.cellId.value))
            && e[EventKey] == Str("cell_start")
            && e[SeverityKey] == Str("DEBUG")
            && e[BodyKey] == Str(CellStartBody(n))
            && e["cell_preview"] == Str(Preview(info.rawCell))
  {
    var p := CellStartEntry(n, info.rawCell);
    var keys := StampedKeys(true, Some(CellContext(n, info.cellId)));
    assert keys <= {TimestampKey, ThreadIdKey, ThreadNameKey, CellNumberKey, CellIdKey};
    assert EventKey !in keys && BodyKey !in keys && "cell_preview" !in keys && SeverityKey !in keys;
    assert CellIdKey !in p;
  }

  /**
   `_post_run_cell` with cell info enabled and a current cell queues (when
   accepting) an end record that still carries the cell number, its end
   message, ERROR exactly when the cell raised and then the error text; in
   every case the cell stops being current.
   */
  lemma PostRunCellRecord(s: State, result: CellResult, ctx: Ctx)
    ensures PostRunCell(s, result, ctx).currentCell == None
    ensures !(s.config.includeCellInfo && s.currentCell.Some?) ==> PostRunCell(s, result, ctx).queue == s.queue
    ensures !Accepting(s) ==> PostRunCell(s, result, ctx).queue == s.queue
    ensures s.config.includeCellInfo && s.currentCell.Some? && Accepting(s) ==>
              var r := PostRunCell(s, result, ctx);
              var e := Last(r.queue);
              && |r.queue| == |s.queue| + 1
              && r.queue[..|s.queue|] == s.queue
              && e[CellNumberKey] == Int(s.currentCell.value.number)
              && e[SeverityKey] == Str(if result.errorInExec.Some? then "ERROR" else "DEBUG")
              && e[EventKey] == Str("cell_end")
              && e[BodyKey] == Str(CellEndBody(s.cellCount))
              && e["success"] == Bool(result.success)
              && ("error" in e <==> result.errorInExec.Some?)
              && (result.errorInExec.Some? ==> e["error"] == Str(result.errorInExec.value))
  {
    if s.config.includeCellInfo && s.currentCell.Some? && Accepting(s) {
      var p := CellEndEntry(s.cellCount, result);
      assert PostRunCell(s, result, ctx).queue == s.queue + [Normalized(s, p, ctx)];
      CellEndStamped(s, result, ctx);
    }
  }

  /** The end record of the current cell once `_log` has stamped it. */
  lemma CellEndStamped(s: State, result: CellResult, ctx: Ctx)
    requires s.config.includeCellInfo && s.currentCell.Some?
    ensures var e := Normalized(s, CellEndEntry(s.cellCount, result), ctx);
            && e[CellNumberKey] == Int(s.currentCell.value.number)
            && e[SeverityKey] == Str(if result.errorInExec.Some? then "ERROR" else "DEBUG")
            && e[EventKey] == Str("cell_end")
            && e[BodyKey] == Str(CellEndBody(s.cellCount))
            && e["success"] == Bool(result.success)
            && ("error" in e <==> result.errorInExec.Some?)
            && (result.errorInExec.Some? ==> e["error"] == Str(result.errorInExec.value))
  {
    var keys := StampedKeys(true, s.currentCell);
    assert keys <= {TimestampKey, ThreadIdKey, ThreadNameKey, CellNumberKey, CellIdKey};
    assert SeverityKey !in keys && EventKey !in keys && BodyKey !in keys;
    assert "success" !in keys && "error" !in keys;
  }

  /** After `_post_run_cell`, records get no cell context from `_log` until the next cell starts. */
  lemma NoCellContextAfterPostRun(s: State, result: CellResult, entry: Entry, ctx: Ctx, ctx': Ctx)
    ensures Normalized(PostRunCell(s, result, ctx), entry, ctx').Keys
         == entry.Keys + {TimestampKey, ThreadIdKey, ThreadNameKey}
  {
  }
}

=== FILE: records.dfy ===
/**
 Log entries and the normalisation `_log` applies to each of them before it
 is queued (handler.py, `ThreadSafeStructuredLogger._log`), plus the
 `queue.Queue` capacity test that decides whether the entry is kept.
 */
module Records {

  datatype Option<T> = None | Some(value: T)

  /** The JSON-serialisable values that end up in an entry. */
  datatype Value = Str(s: string) | Int(i: int) | Bool(b: bool)

  /** A log entry: a dictionary from field names to values (key order is not modelled). */
  type Entry = map<string, Value>

  /**
   The execution context `_log` reads: `datetime.utcnow().isoformat() + "Z"`,
   `threading.get_ident()` and `threading.current_thread().name`.
   */
  datatype Ctx = Ctx(timestamp: string, threadId: int, threadName: string)

  /**
   `current_cell` as `_pre_run_cell` builds it. Its `start_time` is never read
   by `_log`, so it is not kept.
   */
  datatype CellContext = CellContext(number: nat, cellId: Option<string>)

  const SeverityKey: string := "severity_text"
  const BodyKey: string := "body"
  const TimestampKey: string := "timestamp"
  const ThreadIdKey: string := "thread_id"
  const ThreadNameKey: string := "thread_name"
  const CellNumberKey: string := "cell_number"
  const CellIdKey: string := "cell_id"

  /** Python truthiness of an optional string: present and non-empty. */
  predicate Truthy(v: Option<string>) {
    v.Some? && v.value != ""
  }

  /** `self.include_cell_info and self.current_cell`: the entry gets a cell number. */
  predicate AddsCellNumber(includeCellInfo: bool, cell: Option<CellContext>) {
    includeCellInfo && cell.Some?
  }

  /** ... and additionally a cell id when that id is truthy. */
  predicate AddsCellId(includeCellInfo: bool, cell: Option<CellContext>) {
    AddsCellNumber(includeCellInfo, cell) && Truthy(cell.value.cellId)
  }

  /** The keys `_log` writes into an entry. */
  function StampedKeys(includeCellInfo: bool, cell: Option<CellContext>): set<string> {
    {TimestampKey, ThreadIdKey, ThreadNameKey}
    + (if AddsCellNumber(includeCellInfo, cell) then {CellNumberKey} else {})
    + (if AddsCellId(includeCellInfo, cell) then {CellIdKey} else {})
  }

  /** Every entry that reaches the queue carries the three mandatory fields. */
  predicate Stamped(e: Entry) {
    TimestampKey in e && ThreadIdKey in e && ThreadNameKey in e
  }

  /**
   The normalisation step of `_log`: stamp time and thread identity over
   whatever the caller supplied, then add the cell context when enabled.
   */
  function Stamp(entry: Entry, ctx: Ctx, includeCellInfo: bool, cell: Option<CellContext>): (r: Entry)
    ensures r.Keys == entry.Keys + StampedKeys(includeCellInfo, cell)
    ensures Stamped(r)
    ensures r[TimestampKey] == Str(ctx.timestamp)
    ensures r[ThreadIdKey] == Int(ctx.threadId)
    ensures r[ThreadNameKey] == Str(ctx.threadName)
    ensures AddsCellNumber(includeCellInfo, cell) ==> r[CellNumberKey] == Int(cell.value.number)
    ensures AddsCellId(includeCellInfo, cell) ==> r[CellIdKey] == Str(cell.value.cellId.value)
    ensures forall k :: k in entry && k !in StampedKeys(includeCellInfo, cell) ==> r[k] == entry[k]
  {
    var e := entry[TimestampKey := Str(ctx.timestamp)]
                  [ThreadIdKey := Int(ctx.threadId)]
                  [ThreadNameKey := Str(ctx.threadName)];
    if AddsCellNumber(includeCellInfo, cell) then
      var e' := e[CellNumberKey := Int(cell.value.number)];
      if Truthy(cell.value.cellId) then e'[CellIdKey := Str(cell.value.cellId.value)] else e'
    else e
  }

  /** Stamping is idempotent apart from the clock: restamping in the same context changes nothing. */
  lemma StampIdempotent(entry: Entry, ctx: Ctx, includeCellInfo: bool, cell: Option<CellContext>)
    ensures Stamp(Stamp(entry, ctx, includeCellInfo, cell), ctx, includeCellInfo, cell)
         == Stamp(entry, ctx, includeCellInfo, cell)
  {
    var once := Stamp(entry, ctx, includeCellInfo, cell);
    var twice := Stamp(once, ctx, includeCellInfo, cell);
    assert twice.Keys == once.Keys;
    forall k | k in once
      ensures twice[k] == once[k]
    {
    }
  }

  /**
   `queue.Queue(maxsize).full()`: a queue whose `maxsize` is zero or negative
   is unbounded; otherwise it is full once it holds `maxsize` items.
   */
  predicate Full(length: nat, maxsize: int) {
    0 < maxsize <= length
  }
}

=== FILE: strings.dfy ===
/**
 The few string operations the logger relies on: Python's whitespace test and
 `strip`/`rstrip`, the ASCII part of `str.upper`, decimal rendering of a cell
 counter (as in an f-string) and the 100-character cell preview.
 */
module Strings {

  /** The characters for which Python's `str.isspace()` holds. */
  predicate IsSpace(c: char) {
    || c == ' '
    || ('\t' <= c <= '\r')
    || ('\U{1C}' <= c <= '\U{1F}')
    || c == '\U{85}'
    || c == '\U{A0}'
    || c == '\U{1680}'
    || ('\U{2000}' <= c <= '\U{200A}')
    || c == '\U{2028}'
    || c == '\U{2029}'
    || c == '\U{202F}'
    || c == '\U{205F}'
    || c == '\U{3000}'
  }

  /** True when every character of `t` is whitespace (vacuously for ""). */
  predicate IsBlank(t: string) {
    forall i :: 0 <= i < |t| ==> IsSpace(t[i])
  }

  /** Python's `t.rstrip()`: drops the trailing whitespace run. */
  function RStrip(t: string): (r: string)
    ensures r <= t
    ensures IsBlank(t[|r|..])
    ensures r == [] || !IsSpace(r[|r| - 1])
    decreases |t|
  {
    if t == [] || !IsSpace(t[|t| - 1]) then t
    else
      var r := RStrip(t[..|t| - 1]);
      assert t[|r|..] == t[..|t| - 1][|r|..] + [t[|t| - 1]];
      r
  }

  /** Python's `t.lstrip()`: drops the leading whitespace run. */
  function LStrip(t: string): (r: string)
    ensures |r| <= |t| && r == t[|t| - |r|..]
    ensures IsBlank(t[..|t| - |r|])
    ensures r == [] || !IsSpace(r[0])
    decreases |t|
  {
    if t == [] || !IsSpace(t[0]) then t
    else
      var r := LStrip(t[1..]);
      assert t[..|t| - |r|] == [t[0]] + t[1..][..|t[1..]| - |r|];
      r
  }

  /** Python's `t.strip()`. */
  function Strip(t: string): string {
    LStrip(RStrip(t))
  }

  /** `t.rstrip()` is empty exactly when `t` is all whitespace. */
  lemma RStripEmptyIffBlank(t: string)
    ensures RStrip(t) == [] <==> IsBlank(t)
  {
    var r := RStrip(t);
    if r != [] {
      assert t[|r| - 1] == r[|r| - 1];
    }
  }

  /** `t.lstrip()` is empty exactly when `t` is all whitespace. */
  lemma LStripEmptyIffBlank(t: string)
    ensures LStrip(t) == [] <==> IsBlank(t)
  {
    var r := LStrip(t);
    if r != [] {
      assert t[|t| - |r|] == r[0];
    } else {
      assert t[..|t| - |r|] == t;
    }
  }

  /** Python's truthiness of `t.strip()`: something other than whitespace remains. */
  lemma StripEmptyIffBlank(t: string)
    ensures Strip(t) == [] <==> IsBlank(t)
  {
    var r := RStrip(t);
    RStripEmptyIffBlank(t);
    LStripEmptyIffBlank(r);
  }

  /** `str.upper()` on one character, restricted to ASCII letters. */
  function UpperChar(c: char): (u: char)
    ensures !('a' <= u <= 'z')
    ensures !('a' <= c <= 'z') ==> u == c
    ensures ('a' <= c <= 'z') ==> 'A' <= u <= 'Z' && u as int - c as int == 'A' as int - 'a' as int
  {
    if 'a' <= c <= 'z' then (c as int - 'a' as int + 'A' as int) as char else c
  }

  /** `s.upper()` for ASCII letters; every other character is kept. */
  function Upper(s: string): (r: string)
    ensures |r| == |s|
    ensures forall i :: 0 <= i < |r| ==> !('a' <= r[i] <= 'z')
    ensures forall i :: 0 <= i < |r| && !('a' <= s[i] <= 'z') ==> r[i] == s[i]
    ensures forall i :: 0 <= i < |r| ==> r[i] == UpperChar(s[i])
    decreases |s|
  {
    if s == [] then [] else [UpperChar(s[0])] + Upper(s[1..])
  }

  /** Upper-casing twice is upper-casing once. */
  lemma {:induction false} UpperIdempotent(s: string)
    ensures Upper(Upper(s)) == Upper(s)
  {
    var u := Upper(s);
    var uu := Upper(u);
    assert |uu| == |u|;
    forall i | 0 <= i < |u|
      ensures uu[i] == u[i]
    {
      assert !('a' <= u[i] <= 'z');
    }
  }

  predicate IsDigit(c: char) {
    '0' <= c <= '9'
  }

  function DigitChar(d: nat): (c: char)
    requires d < 10
    ensures IsDigit(c)
  {
    ('0' as int + d) as char
  }

  function DigitValue(c: char): (d: nat)
    requires IsDigit(c)
    ensures d < 10 && DigitChar(d) == c
  {
    c as int - '0' as int
  }

  /** Decimal rendering of a natural number, as `f"{n}"` does for a Python int. */
  function NatToString(n: nat): (r: string)
    ensures |r| >= 1
    ensures forall i :: 0 <= i < |r| ==> IsDigit(r[i])
    ensures r[0] == '0' ==> n == 0
    decreases n
  {
    if n < 10 then [DigitChar(n)] else NatToString(n / 10) + [DigitChar(n % 10)]
  }

  /** Reads a string of decimal digits back as a number. */
  function ParseDecimal(s: string): nat
    requires forall i :: 0 <= i < |s| ==> IsDigit(s[i])
    decreases |s|
  {
    if s == [] then 0
    else ParseDecimal(s[..|s| - 1]) * 10 + DigitValue(s[|s| - 1])
  }

  /** The decimal rendering is faithful: it reads back as the same number. */
  lemma {:induction false} NatToStringRoundTrip(n: nat)
    ensures ParseDecimal(NatToString(n)) == n
    decreases n
  {
    if n >= 10 {
      var s := NatToString(n);
      assert s[..|s| - 1] == NatToString(n / 10);
      NatToStringRoundTrip(n / 10);
    }
  }

  /** Distinct numbers render differently. */
  lemma NatToStringInjective(m: nat, n: nat)
    requires NatToString(m) == NatToString(n)
    ensures m == n
  {
    NatToStringRoundTrip(m);
    NatToStringRoundTrip(n);
  }

  const PreviewLength: nat := 100

  /** `raw[:100] if raw else ""`: the first 100 characters of a cell's source. */
  function Preview(raw: string): (r: string)
    ensures r <= raw
    ensures |r| == if |raw| < PreviewLength then |raw| else PreviewLength
  {
    if raw == [] then "" else if |raw| <= PreviewLength then raw else raw[..PreviewLength]
  }
}
